=== FILE: README.md ===
# CrptApi client core in Dafny

A model of the core of the `CrptApi` client. The client files goods-introduction
documents with the national marking registry. It has three parts:

- **the token bucket**: a fixed-window rate limiter. It admits at most `requestLimit`
  calls per window. A window starts at the call that resets it and lasts one time unit,
  and the reset is hard. Windows are not aligned to a sliding interval, so two windows
  back to back can admit twice the limit within one time unit.
- **the credential cache** (`authorizeIfNeeded`): it decides whether to renew the
  bearer token, runs the two-exchange renewal and stores the token with its start time.
- **submission** (`postLpIntroduceGoods`, `postDocument`): it maps the document format
  to a document type, authorizes, takes a rate slot, sends the document and checks the status.

Everything is pure. Clock readings are integer milliseconds passed in as parameters.
The registry's replies are inputs too: a status and body, or an I/O failure. So is what
Gson makes of a 200 body: null for an empty or `null` body, otherwise the DTO. The
blocking `Consume()` loop runs over a supplied sequence of readings. Each iteration has
two readings: one for `tryConsume`, and the fresh one the sleep at line 336 of
src/CrptApi.java subtracts. A negative sleep makes `Thread.sleep` throw. If the
readings run out first, the caller is still blocked.

Files: `optional.dfy` (an `Option` type for Java's nullable fields), `token_bucket.dfy`,
`documents.dfy`, `exchange.dfy` (replies, parsed bodies, failures, the observable steps
and their order), `credentials.dfy` and `submission.dfy`.

The client's renewal test is inverted. It returns early only when the token is
*older* than ten hours (see Findings). `Credentials.Policy` selects either the test
as written (`AsWritten`) or the corrected one (`Intended`). `Authorize` and the
submission functions take the policy as a parameter. Every lemma about submissions
holds under both policies.

`Credentials.Authorize` requires `Consistent`: a token is never present without its
start time. Without it, line 69 of src/CrptApi.java would dereference a null start
time. Construction establishes the invariant and every operation preserves it
(`Submission.NewClient`, `Submission.SubmitPreservesInvariants`).

## Model

| member | source | states |
|---|---|---|
| TokenBucket.WindowMillis | src/CrptApi.java:23-25 | the window is `timeUnit.toMillis(1)`, one unit truncated to whole milliseconds; it is zero exactly for nanoseconds and microseconds |
| TokenBucket.Create | src/CrptApi.java:320-323 | the constructor sets only the window and the size, leaving the deadline at Java's zero, so a reset is due at any non-negative time; the bucket meets `0 <= count <= size` iff neither argument is negative |
| TokenBucket.ForClient | src/CrptApi.java:23-25 | the client's bucket has window `timeUnit.toMillis(1)` and size `requestLimit`, and meets the quota invariant iff the limit is not negative |
| TokenBucket.FreshBucketResetsOnFirstCall | src/CrptApi.java:314-323 | a fresh bucket has zero count and deadline 0, so its first call at any non-negative time resets it to a full window, and that call succeeds iff the size is positive |
| TokenBucket.CreateValid | src/CrptApi.java:320-323 | the zero-initialised bucket satisfies `0 <= count <= size` whenever the size (unchecked by the constructor) is not negative |
| TokenBucket.Refill | src/CrptApi.java:340-347 | before the deadline nothing changes; from the deadline on, the count becomes the bucket size, the last refill time is `now` and the deadline is `now + window`; the configuration never changes |
| TokenBucket.RefillNoCarryOver | src/CrptApi.java:340-347 | a reset does not depend on the count it replaces: unused admissions are discarded, never carried over |
| TokenBucket.RefillIdempotent | src/CrptApi.java:340-347 | a second refill at the same instant changes nothing, whatever the window: a reset's values do not depend on the bucket it replaces |
| TokenBucket.RefillValid | src/CrptApi.java:340-347 | refill preserves `0 <= count <= size` |
| TokenBucket.TryConsume | src/CrptApi.java:325-332 | a slot is taken iff the post-refill count is positive, and then the count drops by exactly one; otherwise the post-refill bucket is returned unchanged |
| TokenBucket.TryConsumeValid | src/CrptApi.java:325-332 | tryConsume preserves `0 <= count <= size` |
| TokenBucket.RunValid | src/CrptApi.java:325-347 | any sequence of tryConsume calls preserves `0 <= count <= size` |
| TokenBucket.RunWithinWindow | src/CrptApi.java:325-347 | calls made before the deadline never reset; exactly `min(calls, count)` of them succeed, each lowering the count by one |
| TokenBucket.QuotaPerWindow | src/CrptApi.java:325-347 | after a call resets the window, the calls made before the new deadline (that one included) admit exactly `min(calls, size)`, so never more than the bucket size |
| TokenBucket.AdmissionsBoundedByResets | src/CrptApi.java:325-347 | over any call sequence, admissions never exceed the starting count plus one bucket size per reset |
| TokenBucket.ZeroWindowNeverRefuses | src/CrptApi.java:340-347 | with an empty window and a positive size, on a clock that never goes backwards, every call in any sequence resets the window and is admitted: a sub-millisecond TimeUnit turns rate limiting off |
| TokenBucket.ZeroWindowBackwardClockRefuses | src/CrptApi.java:340-347 | that needs a clock that does not go backwards: with an empty window and size 1, a call at 5 ms followed by one at 4 ms admits only the first |
| TokenBucket.FailedAttemptSleepNonNegative | src/CrptApi.java:335-336 | after a failed attempt the deadline is at or after the attempt's own reading, so the sleep turns negative only when the sleep's fresh reading is later than the attempt's |
| TokenBucket.ConsumeFrom | src/CrptApi.java:334-338 | the loop retries until a slot is taken; it ends admitted or refused before the readings run out, or uses them all while still waiting; every sleep it takes is non-negative, and a refusal (the IllegalArgumentException Thread.sleep raises) carries a negative duration |
| TokenBucket.ConsumeSleepsUntilDeadline | src/CrptApi.java:334-338 | the k-th sleep taken is the deadline left by the first k+1 attempts minus that iteration's fresh reading; with every sleep taken non-negative, the loop stops at the first negative one |
| TokenBucket.Consume | src/CrptApi.java:334-338 | the loop matches the recursive reference `ConsumeFrom`; an admission is one successful tryConsume after failures only; a refused sleep or running out of readings takes no slot, and the refused duration is the deadline minus the sleep's reading |
| TokenBucket.PromptSleepNeverRefused | src/CrptApi.java:334-338 | when no time passes between an attempt and its sleep reading, Thread.sleep never refuses |
| TokenBucket.LateSleepReadingRefused | src/CrptApi.java:334-338 | with one request per second, a failed attempt at 999 ms followed by a sleep reading of 1001 ms asks for -1 ms and throws |
| TokenBucket.ConsumeNeverAdmitsEmptyBucket | src/CrptApi.java:334-338 | with a size of zero or less, Consume never admits, whatever the clock readings |
| TokenBucket.ConsumeAdmitsAfterOneSleep | src/CrptApi.java:334-338 | with a positive size, once an accepted sleep has elapsed, the second attempt is admitted |
| TokenBucket.ConsumeValid | src/CrptApi.java:334-338 | Consume preserves `0 <= count <= size`, however it ends |
| TokenBucket.TwoPerSecondScenario | src/CrptApi.java:24 | with two requests per second, calls at 0 and 10 ms pass; a call at 20 ms waits 980 ms and passes at 1000 ms |
| Documents.DocTypeFor | src/CrptApi.java:29-39 | the type chosen for a format is the goods-introduction type whose name carries that format's suffix |
| Documents.DocTypeForCorrect | src/CrptApi.java:29-39 | MANUAL, XML and CSV map to LP_INTRODUCE_GOODS, LP_INTRODUCE_GOODS_XML and LP_INTRODUCE_GOODS_CSV; the mapping is total, injective and inverted by reading the type's suffix |
| Credentials.SkipAsWritten | src/CrptApi.java:68-72 | returns early only for a present token older than ten hours; a null token, or one at most ten hours old, falls through to renewal |
| Credentials.Renew | src/CrptApi.java:73-99 | success iff both exchanges answer 200 and both bodies parse, and then token and start time become the parsed token and `now` together; a non-200 status fails with that status and body; a null challenge DTO fails before the second exchange; a null token DTO fails after writing only the start time; every other failure leaves the credential unchanged |
| Credentials.Authorize | src/CrptApi.java:67-100 | the registry is contacted iff the skip test fails, and then the result is the renewal's; a non-skipped call with two good replies stores `(token, now)`; a failure never changes the token; a token is never present without its start time |
| Credentials.AsWrittenNullTokenRenews | src/CrptApi.java:68-72 | as written, a null token is always renewed |
| Credentials.AsWrittenFreshTokenRenews | src/CrptApi.java:68-72 | as written, a token younger than ten hours triggers renewal on every call |
| Credentials.AsWrittenRenewsAgainImmediately | src/CrptApi.java:68-72 | as written, a successful renewal is followed by another one on a call at the same instant |
| Credentials.AsWrittenExpiredTokenKeptForever | src/CrptApi.java:68-72 | as written, once the token is older than ten hours every later call reuses it without contacting the registry |
| Credentials.SkipTestsComplementary | src/CrptApi.java:68-72 | when a token is present, the written test and the corrected test are exact opposites |
| Credentials.IntendedReusesWithinLifetime | src/CrptApi.java:68-72 | with the corrected test, a token obtained at `now` serves every call up to `now + 10h` with no exchange |
| Credentials.IntendedRenewsMissingOrExpired | src/CrptApi.java:68-72 | with the corrected test, a missing or expired token always leads to renewal |
| Credentials.NullTokenBodyRestartsLifetime | src/CrptApi.java:97-99 | a 200 certification reply with an empty or `null` body sets the start time to `now`, keeps the old token, and fails with a null dereference |
| Credentials.IntendedReusesExpiredTokenAfterNullBody | src/CrptApi.java:97-99 | with the corrected test, that partial write makes an expired token look fresh, and it is reused for another ten hours |
| Submission.NewClient | src/CrptApi.java:23-25 | a new client has a null credential and the bucket built from its configuration; both invariants hold when the limit is not negative |
| Submission.PostDocument | src/CrptApi.java:43-65 | the renewal exchanges come first; a slot is taken iff authorization raised nothing and `Consume()` admitted, and then the slot and the send of the document under `docType`, with the post-authorization token as bearer, are the only further steps; the credential is authorization's, and the bucket is untouched after an authorization failure and otherwise the one `Consume()` left; an authorization failure, a refused sleep, an I/O failure and a non-200 status each end it with that failure; success iff a slot was taken and the post answered 200; blocked iff the readings ran out |
| Submission.EverySendCarriesDocument | src/CrptApi.java:43-57 | the only document a submission sends is the caller's, with the given type and the post-authorization token |
| Submission.PostLpIntroduceGoods | src/CrptApi.java:27-41 | the submission is exactly `postDocument`'s, as in the row above, with the document filed under the type its format selects |
| Submission.LpIntroduceGoodsFiledUnderOwnFormat | src/CrptApi.java:27-41 | every document sent is filed under a type whose name carries the document's own format |
| Submission.FailedRenewalTakesNoSlot | src/CrptApi.java:51-59 | a failed renewal ends the submission with that failure, with the bucket and token untouched and no slot taken |
| Submission.RejectedPostSpendsSlot | src/CrptApi.java:59-64 | a non-200 post fails with that status and body, and the slot stays spent |
| Submission.SubmitPreservesInvariants | src/CrptApi.java:43-65 | a submission preserves the bucket's quota invariant and the credential's consistency |

## Findings

| source | as written | input that shows it | evidently intended | confidence | as-written member | corrected member |
|---|---|---|---|---|---|---|
| src/CrptApi.java:68-72 | returns early (reuses the token) only when `now` is after `startTokenLifeTime + 10h`; otherwise renews | token obtained at 0 ms: a call at 0 ms renews it again, and a call at 36 000 001 ms or later reuses the expired token forever | reuse the token while it is at most ten hours old; renew it once it is older | high (not executed) | Credentials.AsWrittenRenewsAgainImmediately | Credentials.IntendedReusesWithinLifetime |

`Credentials.AsWrittenExpiredTokenKeptForever` shows the second half of the discrepancy.
`Credentials.IntendedRenewsMissingOrExpired` proves the corrected test's other direction.
The submission model takes the policy as a parameter, so it can run with either test.

## Left out

- HTTP transport, URIs, headers and the shared static `HttpClient` (src/CrptApi.java:18-21, 52-57, 73-92): network I/O. Replies are inputs, as a status and body or an I/O failure.
- Gson serialisation and the DTO classes: foreign library code. What Gson returns for a 200 body is an input: a null DTO, or a DTO whose token may be null. Malformed JSON, which makes Gson throw, is not modelled.
- `signTokenData`: its output only goes into an outbound request body, which the model does not represent.
- `synchronized`, `Thread.sleep`'s actual waiting and `InterruptedException`: concurrency and real time. Mutual exclusion over renewal and over the bucket is therefore not modelled. `Consume` runs over a supplied sequence of clock readings.
- TokenBucket.Refill: `refill` reads `System.currentTimeMillis()` twice (lines 341 and 344). The model uses one reading for both, so a tick between the two reads is not represented.
- Credentials.Authorize: `authorizeIfNeeded` reads `LocalDateTime.now()` at line 69 and again at line 98. The model uses one reading for both, so the stored start time is the time of the test rather than the moment the reply arrived.
- `long` and `int` overflow and `LocalDateTime` calendar arithmetic: time is unbounded integer milliseconds, and ten hours is 36 000 000 ms.
- The `ProductGroup` enum and the 57 `DocType` constants the client never selects (src/CrptApi.java:236-310): inert values. A document's product group is not carried in the model.
- `Document` has no constructor or setters (src/CrptApi.java:212-228), so its fields are null unless Gson or reflection sets them. A null document or a null `document_format` makes line 29 throw NullPointerException. The model's `Document` and `DocFormat` are never null, so that failure is not represented.
- The constructor does not reject a non-positive `requestLimit`. The model keeps that behaviour: such a client never admits (`ConsumeNeverAdmitsEmptyBucket`).

=== FILE: credentials.dfy ===
/**
 * The credential cache of the client (`authorizeIfNeeded`): the bearer token,
 * the time it was obtained, the test that decides whether to renew it, and the
 * two-exchange renewal. A successful renewal replaces both fields together; a
 * failed one leaves the token alone, and also the start time except when the
 * certification reply is 200 with an empty body.
 *
 * `authorizeIfNeeded` returns early only when the token is OLDER than its
 * ten-hour lifetime, so a fresh token is renewed on every call and an expired one is
 * kept for good. `AsWritten` models that test exactly; `Intended` is the
 * reading with the comparison the right way round.
 */
module Credentials {

  import opened Optional
  import opened Exchange

  /** Ten hours, in milliseconds: the lifetime the skip test compares against. */
  const TokenLifetimeMillis: int := 10 * 60 * 60 * 1000

  /** The two nullable fields `tokenData` and `startTokenLifeTime`. */
  datatype Credential = Credential(tokenData: Option<string>, startTokenLifeTime: Option<int>)

  /** Both fields are null when the client is constructed. */
  const Initial: Credential := Credential(None, None)

  /**
   * A token is never present without its start time, so the skip test never
   * dereferences a null start time.
   */
  predicate Consistent(c: Credential) {
    c.tokenData.Some? ==> c.startTokenLifeTime.Some?
  }

  /** Which skip test the renewal uses. */
  datatype Policy = AsWritten | Intended

  /**
   * The skip test as written at line 69: return early only when a token is
   * present and `now` is after its start time plus the lifetime. A null token,
   * or one not yet past its lifetime, falls through to renewal.
   */
  function SkipAsWritten(c: Credential, now: int): (skip: bool)
    requires Consistent(c)
    ensures skip ==> c.tokenData.Some?
    ensures c.tokenData.Some? && now <= c.startTokenLifeTime.value + TokenLifetimeMillis ==> !skip
    ensures c.tokenData.Some? && now > c.startTokenLifeTime.value + TokenLifetimeMillis ==> skip
  {
    c.tokenData.Some? && now > c.startTokenLifeTime.value + TokenLifetimeMillis
  }

  /** The skip test with the comparison negated: a token not yet past its lifetime is reused. */
  predicate SkipIntended(c: Credential, now: int)
    requires Consistent(c)
  {
    c.tokenData.Some? && !(now > c.startTokenLifeTime.value + TokenLifetimeMillis)
  }

  predicate Skip(p: Policy, c: Credential, now: int)
    requires Consistent(c)
  {
    match p
    case AsWritten => SkipAsWritten(c, now)
    case Intended => SkipIntended(c, now)
  }

  /**
   * What the registry supplies to one renewal: the challenge reply and its
   * parsed body (an AuthorizationDto), the certification reply and its parsed
   * body (a TokenDto, whose token field may itself be null).
   */
  datatype Replies = Replies(key: Reply, challenge: Parsed<()>, cert: Reply, token: Parsed<Option<string>>)

  /** Both exchanges answer 200 with a body Gson turns into an object. */
  predicate RenewalSucceeds(rr: Replies) {
    IsOk(rr.key) && rr.challenge.Dto? && IsOk(rr.cert) && rr.token.Dto?
  }

  /**
   * The certification exchange answers 200 with an empty or `null` body: the
   * start time is written (line 98) before the null TokenDto is dereferenced
   * (line 99).
   */
  predicate NullTokenBody(rr: Replies) {
    IsOk(rr.key) && rr.challenge.Dto? && IsOk(rr.cert) && rr.token.NullDto?
  }

  /**
   * The result of `authorizeIfNeeded`: the credential afterwards, the
   * exchanges made with the registry, and the failure raised, if any.
   */
  datatype AuthStep = AuthStep(cred: Credential, events: seq<Event>, failure: Option<Failure>)

  /**
   * The renewal proper, once the skip test has failed: fetch the challenge,
   * post it signed, then write the start time and the token parsed from the
   * second reply.
   */
  function Renew(c: Credential, now: int, rr: Replies): (r: AuthStep)
    ensures r.failure.None? <==> RenewalSucceeds(rr)
    ensures r.failure.None? ==> r.cred == Credential(rr.token.fields, Some(now))
    ensures NullTokenBody(rr) ==>
              r.failure == Some(NullDereference) && r.cred == c.(startTokenLifeTime := Some(now))
    ensures r.failure.Some? && !NullTokenBody(rr) ==> r.cred == c
    ensures r.events == (if IsOk(rr.key) && rr.challenge.Dto? then [FetchChallenge, PostSignedChallenge] else [FetchChallenge])
    ensures rr.key.IoFailure? ==> r.failure == Some(TransportFailure)
    ensures rr.key.Reply? && rr.key.status != StatusOk ==> r.failure == Some(RenewalFailed(rr.key.status, rr.key.body))
    ensures IsOk(rr.key) && rr.challenge.NullDto? ==> r.failure == Some(NullDereference)
    ensures IsOk(rr.key) && rr.challenge.Dto? && rr.cert.IoFailure? ==> r.failure == Some(TransportFailure)
    ensures IsOk(rr.key) && rr.challenge.Dto? && rr.cert.Reply? && rr.cert.status != StatusOk ==>
              r.failure == Some(RenewalFailed(rr.cert.status, rr.cert.body))
  {
    match rr.key
    case IoFailure => AuthStep(c, [FetchChallenge], Some(TransportFailure))
    case Reply(keyStatus, keyBody) =>
      if keyStatus != StatusOk then AuthStep(c, [FetchChallenge], Some(RenewalFailed(keyStatus, keyBody)))
      else if rr.challenge.NullDto? then AuthStep(c, [FetchChallenge], Some(NullDereference))
      else
        match rr.cert
        case IoFailure => AuthStep(c, [FetchChallenge, PostSignedChallenge], Some(TransportFailure))
        case Reply(certStatus, certBody) =>
          if certStatus != StatusOk then
            AuthStep(c, [FetchChallenge, PostSignedChallenge], Some(RenewalFailed(certStatus, certBody)))
          else
            var started := c.(startTokenLifeTime := Some(now));
            match rr.token
            case NullDto => AuthStep(started, [FetchChallenge, PostSignedChallenge], Some(NullDereference))
            case Dto(token) => AuthStep(started.(tokenData := token), [FetchChallenge, PostSignedChallenge], None)
  }

  /** `authorizeIfNeeded` at clock value `now`, with the registry's replies as inputs. */
  function Authorize(p: Policy, c: Credential, now: int, rr: Replies): (r: AuthStep)
    requires Consistent(c)
    ensures Consistent(r.cred)
    ensures r.events == [] <==> Skip(p, c, now)
    ensures Skip(p, c, now) ==> r == AuthStep(c, [], None)
    ensures !Skip(p, c, now) ==> r == Renew(c, now, rr)
    ensures !Skip(p, c, now) && RenewalSucceeds(rr) ==>
              r == AuthStep(Credential(rr.token.fields, Some(now)), [FetchChallenge, PostSignedChallenge], None)
    ensures r.failure.Some? ==> r.cred.tokenData == c.tokenData
    ensures r.cred != c ==> r.cred.startTokenLifeTime == Some(now)
    ensures forall i :: 0 <= i < |r.events| ==> IsRenewalStep(r.events[i])
    ensures InOrder(r.events)
  {
    if Skip(p, c, now) then AuthStep(c, [], None)
    else Renew(c, now, rr)
  }

  /** Two 200 replies whose bodies carry `token`. */
  function Granted(token: string): (rr: Replies)
    ensures RenewalSucceeds(rr) && rr.token.fields == Some(token)
  {
    Replies(Reply(StatusOk, ""), Dto(()), Reply(StatusOk, ""), Dto(Some(token)))
  }

  /** As written, a missing token is always renewed. */
  lemma AsWrittenNullTokenRenews(c: Credential, now: int)
    requires c.tokenData.None?
    ensures !SkipAsWritten(c, now)
  {
  }

  /** As written, a token still within its lifetime is renewed, on every call. */
  lemma AsWrittenFreshTokenRenews(c: Credential, now: int, rr: Replies)
    requires c.tokenData.Some? && c.startTokenLifeTime.Some?
    requires now <= c.startTokenLifeTime.value + TokenLifetimeMillis
    ensures Authorize(AsWritten, c, now, rr).events != []
  {
  }

  /**
   * As written, a renewal does not spare the next call: right after a
   * successful renewal at `now`, a second call at the same instant contacts
   * the registry again.
   */
  lemma AsWrittenRenewsAgainImmediately(c: Credential, now: int, token: string, rr: Replies)
    requires Consistent(c)
    requires !SkipAsWritten(c, now)
    ensures var first := Authorize(AsWritten, c, now, Granted(token));
            first.cred == Credential(Some(token), Some(now))
            && Authorize(AsWritten, first.cred, now, rr).events != []
  {
  }

  /**
   * As written, once a token has outlived its lifetime it is reused for
   * good: every later call returns without contacting the registry.
   */
  lemma AsWrittenExpiredTokenKeptForever(c: Credential, now: int, later: int, rr: Replies)
    requires Consistent(c)
    requires SkipAsWritten(c, now) && later >= now
    ensures Authorize(AsWritten, c, later, rr) == AuthStep(c, [], None)
  {
  }

  /** The two tests are exact opposites whenever a token is present. */
  lemma SkipTestsComplementary(c: Credential, now: int)
    requires Consistent(c) && c.tokenData.Some?
    ensures SkipAsWritten(c, now) <==> !SkipIntended(c, now)
  {
  }

  /**
   * With the intended test, a successful renewal that yields a token serves
   * every call for the whole lifetime without contacting the registry.
   */
  lemma IntendedReusesWithinLifetime(c: Credential, now: int, later: int, token: string, rr: Replies)
    requires Consistent(c)
    requires !SkipIntended(c, now)
    requires now <= later <= now + TokenLifetimeMillis
    ensures var first := Authorize(Intended, c, now, Granted(token));
            first.cred == Credential(Some(token), Some(now))
            && Authorize(Intended, first.cred, later, rr) == AuthStep(first.cred, [], None)
  {
  }

  /** With the intended test, a missing or expired token is always renewed. */
  lemma IntendedRenewsMissingOrExpired(c: Credential, now: int, rr: Replies)
    requires Consistent(c)
    requires c.tokenData.None? || now > c.startTokenLifeTime.value + TokenLifetimeMillis
    ensures Authorize(Intended, c, now, rr).events != []
  {
  }

  /**
   * A 200 certification reply with an empty or `null` body restarts the
   * lifetime of the token already held and then fails: the start time is
   * `now`, the token is the old one.
   */
  lemma NullTokenBodyRestartsLifetime(p: Policy, c: Credential, now: int, rr: Replies)
    requires Consistent(c)
    requires !Skip(p, c, now) && NullTokenBody(rr)
    ensures var r := Authorize(p, c, now, rr);
            r.failure == Some(NullDereference)
            && r.cred.tokenData == c.tokenData && r.cred.startTokenLifeTime == Some(now)
  {
  }

  /**
   * With the intended test, that partial write makes an expired token look
   * fresh: after the failed renewal, calls for another full lifetime reuse it
   * without contacting the registry.
   */
  lemma IntendedReusesExpiredTokenAfterNullBody(c: Credential, now: int, later: int, rr: Replies, rr': Replies)
    requires Consistent(c) && c.tokenData.Some?
    requires now > c.startTokenLifeTime.value + TokenLifetimeMillis
    requires NullTokenBody(rr)
    requires now <= later <= now + TokenLifetimeMillis
    ensures var first := Authorize(Intended, c, now, rr);
            first.failure.Some? && first.cred.tokenData == c.tokenData
            && Authorize(Intended, first.cred, later, rr') == AuthStep(first.cred, [], None)
  {
  }
}

=== FILE: documents.dfy ===
/**
 * The document being submitted and the body sent for it. Choosing the
 * registry document type from the document's declared format is a total,
 * pure lookup.
 */
module Documents {

  /** The declared format of a document. */
  datatype DocFormat = Manual | Xml | Csv

  /** The registry document types a goods introduction can be filed as. */
  datatype DocType = LpIntroduceGoods | LpIntroduceGoodsXml | LpIntroduceGoodsCsv

  /** A document to submit (the product group is not modelled). */
  datatype Document = Document(format: DocFormat, productDocument: string)

  /** The outbound document body (the DocumentDto). */
  datatype Payload = Payload(format: DocFormat, productDocument: string, signature: string, docType: DocType)

  /** The switch of `postLpIntroduceGoods`: the document type filed for each format. */
  function DocTypeFor(f: DocFormat): (t: DocType)
    ensures FormatSuffix(t) == f
  {
    match f
    case Manual => LpIntroduceGoods
    case Xml => LpIntroduceGoodsXml
    case Csv => LpIntroduceGoodsCsv
  }

  /** The format a goods-introduction document type is filed for, read off its name. */
  function FormatSuffix(t: DocType): DocFormat {
    match t
    case LpIntroduceGoods => Manual
    case LpIntroduceGoodsXml => Xml
    case LpIntroduceGoodsCsv => Csv
  }

  /** The lookup picks, for every format, the type carrying that format's suffix, and no two formats share a type. */
  lemma DocTypeForCorrect()
    ensures forall f :: FormatSuffix(DocTypeFor(f)) == f
    ensures forall t :: DocTypeFor(FormatSuffix(t)) == t
    ensures forall f, g :: DocTypeFor(f) == DocTypeFor(g) ==> f == g
  {
    forall f, g | DocTypeFor(f) == DocTypeFor(g)
      ensures f == g
    {
      assert FormatSuffix(DocTypeFor(f)) == f;
    }
  }

  /** The body `postDocument` builds: the document's fields, the caller's signature and the chosen type. */
  function BuildPayload(doc: Document, signature: string, docType: DocType): Payload {
    Payload(doc.format, doc.productDocument, signature, docType)
  }
}

=== FILE: exchange.dfy ===
/**
 * What the client sees of the registry: the reply to each HTTP exchange, what
 * Gson makes of a reply body, the externally visible steps of a submission,
 * and the failures it reports. The HTTP client itself is not modelled; its
 * replies are inputs.
 */
module Exchange {

  import opened Optional
  import opened Documents

  /** The status code the client treats as success at every step. */
  const StatusOk: int := 200

  /** The reply of one `client.send`: a status code and body, or an I/O failure (IOException). */
  datatype Reply = Reply(status: int, body: string) | IoFailure

  /** The reply answered 200. */
  predicate IsOk(r: Reply) {
    r.Reply? && r.status == StatusOk
  }

  /**
   * What `gson.fromJson` returns for a reply body: null for an empty or
   * `null` body, otherwise the DTO with its fields.
   */
  datatype Parsed<T> = NullDto | Dto(fields: T)

  /**
   * The failures a submission reports. Each non-200 status is raised as a
   * RuntimeException carrying the code and the body; an I/O failure
   * propagates as it is; a null DTO is dereferenced (NullPointerException);
   * a negative sleep is refused (IllegalArgumentException from Thread.sleep).
   */
  datatype Failure =
    | RenewalFailed(status: int, body: string)
    | SubmissionRejected(status: int, body: string)
    | TransportFailure
    | NullDereference
    | NegativeSleep(duration: int)

  /** The steps of one submission, in the order they are observable. */
  datatype Event =
    | FetchChallenge
    | PostSignedChallenge
    | SlotTaken
    | SendDocument(payload: Payload, bearer: Option<string>)

  /** Position of each step in the fixed order of a submission. */
  function Rank(e: Event): nat {
    match e
    case FetchChallenge => 0
    case PostSignedChallenge => 1
    case SlotTaken => 2
    case SendDocument(_, _) => 3
  }

  /** The steps occur in the fixed order, each at most once. */
  predicate InOrder(events: seq<Event>) {
    forall i, j :: 0 <= i < j < |events| ==> Rank(events[i]) < Rank(events[j])
  }

  /** The steps of a credential renewal. */
  predicate IsRenewalStep(e: Event) {
    e == FetchChallenge || e == PostSignedChallenge
  }

  /**
   * After renewal steps, optionally followed by a slot and a send, the one
   * send is the only document-carrying step.
   */
  lemma OnlySendAfterRenewal(renewal: seq<Event>, tail: seq<Event>, send: Event)
    requires forall i :: 0 <= i < |renewal| ==> IsRenewalStep(renewal[i])
    requires tail == [] || tail == [SlotTaken, send]
    ensures forall i :: 0 <= i < |renewal + tail| && (renewal + tail)[i].SendDocument? ==> (renewal + tail)[i] == send
  {
    assert forall i :: 0 <= i < |renewal| ==> (renewal + tail)[i] == renewal[i];
  }

  /**
   * Renewal steps in order, followed by taking a slot and sending, are still
   * in order: every renewal step precedes the slot.
   */
  lemma SlotAndSendAfterRenewal(renewal: seq<Event>, payload: Payload, bearer: Option<string>)
    requires InOrder(renewal)
    requires forall i :: 0 <= i < |renewal| ==> IsRenewalStep(renewal[i])
    ensures InOrder(renewal + [SlotTaken, SendDocument(payload, bearer)])
  {
    var events := renewal + [SlotTaken, SendDocument(payload, bearer)];
    forall i, j | 0 <= i < j < |events|
      ensures Rank(events[i]) < Rank(events[j])
    {
      if j < |renewal| {
        assert events[i] == renewal[i] && events[j] == renewal[j];
      } else if i < |renewal| {
        assert IsRenewalStep(renewal[i]);
        assert events[i] == renewal[i];
      }
    }
  }
}

=== FILE: optional.dfy ===
/** A value that may be missing: the model's stand-in for a Java reference that may be null. */
module Optional {

  datatype Option<+T> = None | Some(value: T)

}

=== FILE: submission.dfy ===
/**
 * Document submission (`postLpIntroduceGoods` and `postDocument`): pick the
 * document type, make sure of the credential, wait for a rate slot, send the
 * document with the bearer token, and check the status.
 *
 * Every input the registry or the clock supplies is a parameter: the clock
 * value at authorization, the replies of the two renewal exchanges and the
 * token parsed from the second, the clock readings of the rate-slot attempts,
 * and the reply to the document post.
 */
module Submission {

  import opened Optional
  import opened Exchange
  import opened Documents
  import TB = TokenBucket
  import opened Credentials

  /** The client's mutable state: its bucket and its credential. */
  datatype Client = Client(bucket: TB.Bucket, cred: Credential)

  /** A freshly constructed client: `new CrptApi(timeUnit, requestLimit)`. */
  function NewClient(unit: TB.TimeUnit, requestLimit: int): (c: Client)
    ensures c.cred == Initial
    ensures c.bucket == TB.ForClient(unit, requestLimit)
    ensures requestLimit >= 0 ==> TB.Valid(c.bucket) && Consistent(c.cred)
  {
    Client(TB.ForClient(unit, requestLimit), Initial)
  }

  /** How a submission ends: success, a raised failure, or still blocked waiting for a rate slot. */
  datatype Outcome = Succeeded | Failed(failure: Failure) | Blocked

  datatype SubmitResult = SubmitResult(client: Client, events: seq<Event>, outcome: Outcome)

  /** The inputs the world supplies to one submission. */
  datatype World = World(
    now: int,
    renewal: Replies,
    clocks: seq<TB.Reading>,
    post: Reply)

  /** The renewal outcome of a submission, as `authorizeIfNeeded` alone would give it. */
  function AuthOf(p: Policy, c: Client, w: World): AuthStep
    requires Consistent(c.cred)
  {
    Authorize(p, c.cred, w.now, w.renewal)
  }

  /**
   * What `postDocument` does with `doc` filed under `docType`, given what the
   * world supplies:
   * - the credential is the one authorization left; the bucket is untouched
   *   when authorization raised, otherwise it is the one `Consume()` left;
   * - the renewal exchanges come first; a slot is taken exactly when
   *   authorization raised nothing and `Consume()` admitted, and then the
   *   slot and the send of the document, with the token as bearer, are the
   *   only further steps;
   * - an authorization failure, a refused sleep, an I/O failure of the post
   *   and a non-200 status each end the submission with that failure; it
   *   succeeds exactly when a slot was taken and the post answered 200, and
   *   stays blocked exactly when the readings ran out.
   */
  predicate SubmissionOf(p: Policy, c: Client, doc: Document, signature: string, docType: DocType, w: World, r: SubmitResult)
    requires Consistent(c.cred)
  {
    var auth := AuthOf(p, c, w);
    var slot := TB.ConsumeFrom(c.bucket, w.clocks);
    var sent := auth.failure.None? && slot.Admitted?;
    var send := SendDocument(BuildPayload(doc, signature, docType), auth.cred.tokenData);
    && r.client.cred == auth.cred
    && r.client.bucket == (if auth.failure.Some? then c.bucket else slot.bucket)
    && auth.events <= r.events
    && (SlotTaken in r.events <==> sent)
    && |r.events| == |auth.events| + (if sent then 2 else 0)
    && (sent ==> r.events[|auth.events|..] == [SlotTaken, send])
    && InOrder(r.events)
    && (auth.failure.Some? ==> r.outcome == Failed(auth.failure.value))
    && (auth.failure.None? && slot.SleepRefused? ==> r.outcome == Failed(NegativeSleep(slot.duration)))
    && (sent && w.post.IoFailure? ==> r.outcome == Failed(TransportFailure))
    && (sent && w.post.Reply? && w.post.status != StatusOk ==>
          r.outcome == Failed(SubmissionRejected(w.post.status, w.post.body)))
    && (r.outcome == Succeeded <==> sent && IsOk(w.post))
    && (r.outcome == Blocked <==> auth.failure.None? && slot.StillWaiting?)
  }

  /**
   * `postDocument`: authorize, then take a rate slot, then send and check the
   * status.
   */
  function PostDocument(p: Policy, c: Client, doc: Document, signature: string, docType: DocType, w: World): (r: SubmitResult)
    requires Consistent(c.cred)
    ensures SubmissionOf(p, c, doc, signature, docType, w, r)
    ensures Consistent(r.client.cred)
  {
    var auth := AuthOf(p, c, w);
    assert SlotTaken !in auth.events by {
      assert forall i :: 0 <= i < |auth.events| ==> IsRenewalStep(auth.events[i]);
    }
    if auth.failure.Some? then SubmitResult(c.(cred := auth.cred), auth.events, Failed(auth.failure.value))
    else
      match TB.ConsumeFrom(c.bucket, w.clocks)
      case StillWaiting(b, _) => SubmitResult(Client(b, auth.cred), auth.events, Blocked)
      case SleepRefused(b, _, d) => SubmitResult(Client(b, auth.cred), auth.events, Failed(NegativeSleep(d)))
      case Admitted(b, _) =>
        var payload := BuildPayload(doc, signature, docType);
        SlotAndSendAfterRenewal(auth.events, payload, auth.cred.tokenData);
        var events := auth.events + [SlotTaken, SendDocument(payload, auth.cred.tokenData)];
        var outcome :=
          match w.post
          case IoFailure => Failed(TransportFailure)
          case Reply(status, body) => if status != StatusOk then Failed(SubmissionRejected(status, body)) else Succeeded;
        SubmitResult(Client(b, auth.cred), events, outcome)
  }

  /**
   * The only document a submission sends is `doc` under `docType`, with the
   * token authorization left as bearer. This holds for every result
   * `SubmissionOf` describes, so for `PostDocument` and `PostLpIntroduceGoods`.
   */
  lemma EverySendCarriesDocument(p: Policy, c: Client, doc: Document, signature: string, docType: DocType, w: World, r: SubmitResult)
    requires Consistent(c.cred)
    requires SubmissionOf(p, c, doc, signature, docType, w, r)
    ensures forall i :: 0 <= i < |r.events| && r.events[i].SendDocument? ==>
              r.events[i] == SendDocument(BuildPayload(doc, signature, docType), r.client.cred.tokenData)
  {
    var auth := AuthOf(p, c, w);
    var send := SendDocument(BuildPayload(doc, signature, docType), auth.cred.tokenData);
    var tail := r.events[|auth.events|..];
    assert r.events == auth.events + tail;
    OnlySendAfterRenewal(auth.events, tail, send);
  }

  /**
   * `postLpIntroduceGoods`: the submission of `postDocument` with the
   * document filed under the type its format selects.
   */
  function PostLpIntroduceGoods(p: Policy, c: Client, doc: Document, signature: string, w: World): (r: SubmitResult)
    requires Consistent(c.cred)
    ensures SubmissionOf(p, c, doc, signature, DocTypeFor(doc.format), w, r)
    ensures Consistent(r.client.cred)
  {
    PostDocument(p, c, doc, signature, DocTypeFor(doc.format), w)
  }

  /**
   * Every document `postLpIntroduceGoods` sends is filed under a type whose
   * name carries the document's own format.
   */
  lemma LpIntroduceGoodsFiledUnderOwnFormat(p: Policy, c: Client, doc: Document, signature: string, w: World)
    requires Consistent(c.cred)
    ensures var r := PostLpIntroduceGoods(p, c, doc, signature, w);
            forall i :: 0 <= i < |r.events| && r.events[i].SendDocument? ==>
              FormatSuffix(r.events[i].payload.docType) == r.events[i].payload.format == doc.format
  {
    DocTypeForCorrect();
  }

  /**
   * A renewal that fails stops the submission before the rate limiter: the
   * bucket and the token are untouched and no slot is taken.
   */
  lemma FailedRenewalTakesNoSlot(p: Policy, c: Client, doc: Document, signature: string, docType: DocType, w: World)
    requires Consistent(c.cred)
    requires AuthOf(p, c, w).failure.Some?
    ensures var r := PostDocument(p, c, doc, signature, docType, w);
            r.client.bucket == c.bucket
            && r.client.cred.tokenData == c.cred.tokenData
            && r.outcome == Failed(AuthOf(p, c, w).failure.value)
            && SlotTaken !in r.events
  {
    var r := PostDocument(p, c, doc, signature, docType, w);
    var auth := AuthOf(p, c, w);
    assert r.events == auth.events;
    assert forall i :: 0 <= i < |r.events| ==> IsRenewalStep(r.events[i]);
  }

  /**
   * A post answered with anything but 200 fails with that status and body,
   * and the slot it took stays spent: the bucket is the one `Consume()` left.
   */
  lemma RejectedPostSpendsSlot(p: Policy, c: Client, doc: Document, signature: string, docType: DocType, w: World)
    requires Consistent(c.cred)
    requires AuthOf(p, c, w).failure.None? && TB.ConsumeFrom(c.bucket, w.clocks).Admitted?
    requires w.post.Reply? && w.post.status != StatusOk
    ensures var r := PostDocument(p, c, doc, signature, docType, w);
            r.outcome == Failed(SubmissionRejected(w.post.status, w.post.body))
            && r.client.bucket == TB.ConsumeFrom(c.bucket, w.clocks).bucket
            && SlotTaken in r.events
  {
    var r := PostDocument(p, c, doc, signature, docType, w);
    assert r.events[|AuthOf(p, c, w).events|] == SlotTaken;
  }

  /** A submission keeps both invariants: the bucket's quota bound and the credential's consistency. */
  lemma SubmitPreservesInvariants(p: Policy, c: Client, doc: Document, signature: string, docType: DocType, w: World)
    requires TB.Valid(c.bucket) && Consistent(c.cred)
    ensures TB.Valid(PostDocument(p, c, doc, signature, docType, w).client.bucket)
    ensures Consistent(PostDocument(p, c, doc, signature, docType, w).client.cred)
  {
    TB.ConsumeValid(c.bucket, w.clocks);
  }
}

=== FILE: token_bucket.dfy ===
/**
 * The fixed-window rate limiter of the client (its inner class TokenBucket).
 *
 * The bucket holds `countAvailable` admissions for the current window. Once
 * the clock reaches `nextRefillTime` the window is reset hard: the count goes
 * back to `bucketSize` (unused admissions are discarded) and the next deadline
 * is one window later. Time is an explicit integer number of milliseconds; the
 * Java `long` arithmetic is modelled unbounded.
 */
module TokenBucket {

  /** The units of java.util.concurrent.TimeUnit the client is configured with. */
  datatype TimeUnit = Nanoseconds | Microseconds | Milliseconds | Seconds | Minutes | Hours | Days

  /** Length of one unit in nanoseconds, the base every TimeUnit conversion is defined against. */
  function UnitNanos(u: TimeUnit): (n: nat)
    ensures n >= 1
  {
    match u
    case Nanoseconds => 1
    case Microseconds => 1_000
    case Milliseconds => 1_000_000
    case Seconds => 1_000_000_000
    case Minutes => 60_000_000_000
    case Hours => 3_600_000_000_000
    case Days => 86_400_000_000_000
  }

  /**
   * `timeUnit.toMillis(1)`: the window the client gives its bucket. The
   * conversion truncates, so a sub-millisecond unit yields an empty window.
   */
  function WindowMillis(u: TimeUnit): (w: nat)
    ensures w * 1_000_000 <= UnitNanos(u) < (w + 1) * 1_000_000
    ensures w == 0 <==> u == Nanoseconds || u == Microseconds
  {
    UnitNanos(u) / 1_000_000
  }

  datatype Bucket = Bucket(
    countAvailable: int,
    windowMillis: int,
    lastRefillTime: int,
    nextRefillTime: int,
    bucketSize: int)

  /**
   * The constructor stores its two arguments and leaves the other fields at
   * Java's zero default. It does not check `bucketSize`.
   */
  function Create(windowMillis: int, bucketSize: int): (b: Bucket)
    ensures Valid(b) <==> windowMillis >= 0 && bucketSize >= 0
    ensures forall now :: now >= 0 ==> ResetDue(b, now)
  {
    Bucket(0, windowMillis, 0, 0, bucketSize)
  }

  /** The bucket the client builds from its `(timeUnit, requestLimit)` configuration. */
  function ForClient(unit: TimeUnit, requestLimit: int): (b: Bucket)
    ensures b.windowMillis == WindowMillis(unit) && b.bucketSize == requestLimit
    ensures Valid(b) <==> requestLimit >= 0
  {
    Create(WindowMillis(unit), requestLimit)
  }

  /** The configuration fields, which no operation ever changes. */
  predicate SameConfig(a: Bucket, b: Bucket) {
    a.windowMillis == b.windowMillis && a.bucketSize == b.bucketSize
  }

  /** The quota invariant: the count lies between zero and the bucket size. */
  predicate Valid(b: Bucket) {
    b.windowMillis >= 0 && 0 <= b.countAvailable <= b.bucketSize
  }

  /** A window reset is due at `now`. */
  predicate ResetDue(b: Bucket, now: int) {
    now >= b.nextRefillTime
  }

  /**
   * `refill()` read at clock value `now`: before the deadline nothing changes;
   * from the deadline on, the count is reset to the bucket size and the
   * deadline moves one window past `now`.
   */
  function Refill(b: Bucket, now: int): (r: Bucket)
    ensures SameConfig(r, b)
    ensures !ResetDue(b, now) ==> r == b
    ensures ResetDue(b, now) ==>
              r.countAvailable == b.bucketSize && r.lastRefillTime == now
              && r.nextRefillTime == now + b.windowMillis
  {
    if now < b.nextRefillTime then b
    else b.(lastRefillTime := now, nextRefillTime := now + b.windowMillis, countAvailable := b.bucketSize)
  }

  /** The result of one `tryConsume()`: whether a slot was taken, and the bucket afterwards. */
  datatype Attempt = Attempt(consumed: bool, bucket: Bucket)

  /**
   * `tryConsume()` at clock value `now`: refill, then take one slot if the
   * count is positive.
   */
  function TryConsume(b: Bucket, now: int): (a: Attempt)
    ensures SameConfig(a.bucket, b)
    ensures a.consumed <==> Refill(b, now).countAvailable > 0
    ensures a.consumed ==> a.bucket == Refill(b, now).(countAvailable := Refill(b, now).countAvailable - 1)
    ensures !a.consumed ==> a.bucket == Refill(b, now)
  {
    var r := Refill(b, now);
    if r.countAvailable > 0 then Attempt(true, r.(countAvailable := r.countAvailable - 1))
    else Attempt(false, r)
  }

  /** The bucket a fresh client starts from satisfies the quota invariant whenever its size is not negative. */
  lemma CreateValid(windowMillis: int, bucketSize: int)
    requires windowMillis >= 0 && bucketSize >= 0
    ensures Valid(Create(windowMillis, bucketSize))
  {
  }

  /** A fresh bucket resets on its first call at any non-negative time and then holds a full window. */
  lemma FreshBucketResetsOnFirstCall(windowMillis: int, bucketSize: int, now: int)
    requires now >= 0
    ensures ResetDue(Create(windowMillis, bucketSize), now)
    ensures Refill(Create(windowMillis, bucketSize), now).countAvailable == bucketSize
    ensures TryConsume(Create(windowMillis, bucketSize), now).consumed <==> bucketSize > 0
  {
  }

  /** A reset discards whatever was left: the refilled bucket does not depend on the old count. */
  lemma RefillNoCarryOver(b: Bucket, k: int, now: int)
    requires ResetDue(b, now)
    ensures Refill(b, now) == Refill(b.(countAvailable := k), now)
  {
  }

  /** Refilling twice at the same instant is the same as refilling once. */
  lemma RefillIdempotent(b: Bucket, now: int)
    ensures Refill(Refill(b, now), now) == Refill(b, now)
  {
  }

  /** `refill` keeps the quota invariant. */
  lemma RefillValid(b: Bucket, now: int)
    requires Valid(b)
    ensures Valid(Refill(b, now))
  {
  }

  /** `tryConsume` keeps the quota invariant. */
  lemma TryConsumeValid(b: Bucket, now: int)
    requires Valid(b)
    ensures Valid(TryConsume(b, now).bucket)
  {
  }

  /**
   * The sleep `nextRefillTime - clock` the client requests after a failed
   * attempt, where `clock` is the fresh reading taken for the sleep.
   */
  function SleepAfter(b: Bucket, clock: int): int {
    b.nextRefillTime - clock
  }

  /**
   * A failed attempt leaves the deadline at or after the attempt's own
   * reading, so the sleep measured at that reading is never negative; it turns
   * negative only when the sleep's own reading is already past the deadline.
   */
  lemma FailedAttemptSleepNonNegative(b: Bucket, now: int, clock: int)
    requires b.windowMillis >= 0
    requires !TryConsume(b, now).consumed
    ensures SleepAfter(TryConsume(b, now).bucket, now) >= 0
    ensures SleepAfter(TryConsume(b, now).bucket, clock) < 0 ==> clock > now
  {
  }

  /** The outcome of a sequence of `tryConsume` calls: the final bucket and how many calls took a slot. */
  datatype Trace = Trace(bucket: Bucket, admitted: nat)

  /** Calls `tryConsume` once at each clock value of `times`, in order. */
  function Run(b: Bucket, times: seq<int>): (t: Trace)
    ensures t.admitted <= |times|
    ensures SameConfig(t.bucket, b)
    decreases |times|
  {
    if |times| == 0 then Trace(b, 0)
    else
      var a := TryConsume(b, times[0]);
      var rest := Run(a.bucket, times[1..]);
      Trace(rest.bucket, rest.admitted + (if a.consumed then 1 else 0))
  }

  /** How many of the calls of `Run(b, times)` reset the window. */
  function Resets(b: Bucket, times: seq<int>): nat
    decreases |times|
  {
    if |times| == 0 then 0
    else Resets(TryConsume(b, times[0]).bucket, times[1..]) + (if ResetDue(b, times[0]) then 1 else 0)
  }

  /** Running a sequence one call longer is running it, then making one more call. */
  lemma {:induction false} RunSnoc(b: Bucket, times: seq<int>, now: int)
    ensures Run(b, times + [now]).bucket == TryConsume(Run(b, times).bucket, now).bucket
    ensures Run(b, times + [now]).admitted
            == Run(b, times).admitted + (if TryConsume(Run(b, times).bucket, now).consumed then 1 else 0)
    decreases |times|
  {
    if |times| == 0 {
      assert times + [now] == [now];
    } else {
      assert (times + [now])[1..] == times[1..] + [now];
      RunSnoc(TryConsume(b, times[0]).bucket, times[1..], now);
    }
  }

  /** A run keeps the quota invariant. */
  lemma {:induction false} RunValid(b: Bucket, times: seq<int>)
    requires Valid(b)
    ensures Valid(Run(b, times).bucket)
    decreases |times|
  {
    if |times| > 0 {
      TryConsumeValid(b, times[0]);
      RunValid(TryConsume(b, times[0]).bucket, times[1..]);
    }
  }

  /**
   * Within one window (every call before the current deadline) no reset
   * happens, and exactly `min(|times|, countAvailable)` calls take a slot,
   * each lowering the count by one.
   */
  lemma {:induction false} RunWithinWindow(b: Bucket, times: seq<int>)
    requires b.countAvailable >= 0
    requires forall i :: 0 <= i < |times| ==> times[i] < b.nextRefillTime
    ensures Resets(b, times) == 0
    ensures Run(b, times).admitted == if |times| <= b.countAvailable then |times| else b.countAvailable
    ensures Run(b, times).bucket == b.(countAvailable := b.countAvailable - Run(b, times).admitted)
    decreases |times|
  {
    if |times| > 0 {
      var a := TryConsume(b, times[0]);
      assert a.bucket.nextRefillTime == b.nextRefillTime;
      RunWithinWindow(a.bucket, times[1..]);
    }
  }

  /**
   * The quota bound. When a call resets the window, the calls made before the
   * new deadline (that one included) number at most `bucketSize` admissions;
   * precisely, the first `bucketSize` of them succeed and the rest fail.
   */
  lemma {:induction false} QuotaPerWindow(b: Bucket, times: seq<int>)
    requires Valid(b)
    requires |times| > 0 && ResetDue(b, times[0])
    requires forall i :: 0 <= i < |times| ==> times[i] < times[0] + b.windowMillis
    ensures Resets(b, times) == 1
    ensures Run(b, times).admitted == if |times| <= b.bucketSize then |times| else b.bucketSize
    ensures Run(b, times).admitted <= b.bucketSize
  {
    var a := TryConsume(b, times[0]);
    var r := Refill(b, times[0]);
    assert r.nextRefillTime == times[0] + b.windowMillis;
    assert a.bucket.nextRefillTime == r.nextRefillTime;
    forall i | 0 <= i < |times[1..]|
      ensures times[1..][i] < a.bucket.nextRefillTime
    {
      assert times[1..][i] == times[i + 1];
    }
    RunWithinWindow(a.bucket, times[1..]);
  }

  /**
   * Over any sequence of calls, the admissions never exceed what was left at
   * the start plus one full bucket per reset: unused admissions never carry
   * over into a later window.
   */
  lemma {:induction false} AdmissionsBoundedByResets(b: Bucket, times: seq<int>)
    requires Valid(b)
    ensures Run(b, times).admitted <= b.countAvailable + Resets(b, times) * b.bucketSize
    decreases |times|
  {
    if |times| > 0 {
      var a := TryConsume(b, times[0]);
      TryConsumeValid(b, times[0]);
      AdmissionsBoundedByResets(a.bucket, times[1..]);
      var k := Resets(a.bucket, times[1..]);
      var later := k * b.bucketSize;
      assert a.bucket.bucketSize == b.bucketSize;
      assert Run(a.bucket, times[1..]).admitted <= a.bucket.countAvailable + later;
      assert Run(b, times).admitted == Run(a.bucket, times[1..]).admitted + (if a.consumed then 1 else 0);
      if ResetDue(b, times[0]) {
        assert a.bucket.countAvailable + (if a.consumed then 1 else 0) == b.bucketSize;
        assert Resets(b, times) == k + 1;
        assert (k + 1) * b.bucketSize == later + b.bucketSize;
      } else {
        assert a.bucket.countAvailable + (if a.consumed then 1 else 0) == b.countAvailable;
        assert Resets(b, times) == k;
      }
    }
  }

  /**
   * With an empty window (a sub-millisecond TimeUnit) rate limiting is off:
   * the deadline is always the last call's own reading, so on a clock that
   * never goes backwards every call resets the window and is admitted.
   */
  lemma {:induction false} ZeroWindowNeverRefuses(b: Bucket, times: seq<int>)
    requires b.windowMillis == 0 && b.bucketSize > 0
    requires forall i, j :: 0 <= i <= j < |times| ==> times[i] <= times[j]
    requires |times| > 0 ==> b.nextRefillTime <= times[0]
    ensures Run(b, times).admitted == |times|
    ensures Resets(b, times) == |times|
    decreases |times|
  {
    if |times| > 0 {
      var a := TryConsume(b, times[0]);
      assert a.consumed && a.bucket.nextRefillTime == times[0];
      ZeroWindowNeverRefuses(a.bucket, times[1..]);
    }
  }

  /**
   * The empty window needs a clock that does not go backwards: a call at 5 ms
   * sets the deadline to 5, so a following call at 4 ms is refused.
   */
  lemma ZeroWindowBackwardClockRefuses()
    ensures Run(Create(0, 1), [5, 4]).admitted == 1
  {
    assert [5, 4][1..] == [4];
  }

  /**
   * The two clock readings of one iteration of the `Consume()` loop: the one
   * `tryConsume` works with, and the fresh one the sleep is computed from.
   */
  datatype Reading = Reading(attempt: int, beforeSleep: int)

  /** The readings `tryConsume` works with, one per attempt. */
  function Attempts(clocks: seq<Reading>): (times: seq<int>)
    ensures |times| == |clocks|
    ensures forall i :: 0 <= i < |clocks| ==> times[i] == clocks[i].attempt
  {
    seq(|clocks|, i requires 0 <= i < |clocks| => clocks[i].attempt)
  }

  /**
   * The outcome of `Consume()` over a supplied sequence of readings: admitted
   * after `|sleeps| + 1` attempts; refused by Thread.sleep (an
   * IllegalArgumentException) when a requested sleep is negative; or still
   * blocked when the readings run out. `sleeps` lists the sleeps taken.
   */
  datatype Admission =
    | Admitted(bucket: Bucket, sleeps: seq<int>)
    | SleepRefused(bucket: Bucket, sleeps: seq<int>, duration: int)
    | StillWaiting(bucket: Bucket, sleeps: seq<int>)

  /** Prefixes `sleeps` to the sleeps of an outcome. */
  function PrefixThen(sleeps: seq<int>, r: Admission): Admission {
    match r
    case Admitted(b, s) => Admitted(b, sleeps + s)
    case SleepRefused(b, s, d) => SleepRefused(b, sleeps + s, d)
    case StillWaiting(b, s) => StillWaiting(b, sleeps + s)
  }

  lemma PrefixThenAppend(sleeps: seq<int>, d: int, r: Admission)
    ensures PrefixThen(sleeps, PrefixThen([d], r)) == PrefixThen(sleeps + [d], r)
  {
    assert sleeps + ([d] + r.sleeps) == (sleeps + [d]) + r.sleeps;
  }

  /**
   * The reference definition of `Consume()`: retry `tryConsume` until it
   * succeeds, sleeping until the deadline after each failure. Every sleep it
   * takes is non-negative, since Thread.sleep refuses the others.
   */
  function ConsumeFrom(b: Bucket, clocks: seq<Reading>): (r: Admission)
    ensures SameConfig(r.bucket, b)
    ensures r.StillWaiting? ==> |r.sleeps| == |clocks|
    ensures !r.StillWaiting? ==> |r.sleeps| < |clocks|
    ensures r.SleepRefused? ==> r.duration < 0
    ensures forall i :: 0 <= i < |r.sleeps| ==> r.sleeps[i] >= 0
    decreases |clocks|
  {
    if |clocks| == 0 then StillWaiting(b, [])
    else
      var a := TryConsume(b, clocks[0].attempt);
      if a.consumed then Admitted(a.bucket, [])
      else
        var d := SleepAfter(a.bucket, clocks[0].beforeSleep);
        if d < 0 then SleepRefused(a.bucket, [], d)
        else PrefixThen([d], ConsumeFrom(a.bucket, clocks[1..]))
  }

  /**
   * `Consume()`: loops over the readings until an attempt takes a slot. An
   * admission is exactly one successful `tryConsume` after only failures; a
   * refused sleep or running out of readings means no slot was taken.
   */
  method Consume(b: Bucket, clocks: seq<Reading>) returns (r: Admission)
    ensures r == ConsumeFrom(b, clocks)
    ensures !r.StillWaiting? ==>
              var n := |r.sleeps| + 1;
              n <= |clocks|
              && Run(b, Attempts(clocks[..n])) == Trace(r.bucket, if r.Admitted? then 1 else 0)
              && Run(b, Attempts(clocks[..n - 1])).admitted == 0
    ensures r.SleepRefused? ==> r.duration == SleepAfter(r.bucket, clocks[|r.sleeps|].beforeSleep)
    ensures r.StillWaiting? ==> Run(b, Attempts(clocks)) == Trace(r.bucket, 0)
  {
    var cur := b;
    var sleeps: seq<int> := [];
    var i := 0;
    while i < |clocks|
      invariant 0 <= i <= |clocks|
      invariant |sleeps| == i
      invariant Run(b, Attempts(clocks[..i])) == Trace(cur, 0)
      invariant ConsumeFrom(b, clocks) == PrefixThen(sleeps, ConsumeFrom(cur, clocks[i..]))
    {
      var a := TryConsume(cur, clocks[i].attempt);
      RunSnoc(b, Attempts(clocks[..i]), clocks[i].attempt);
      assert Attempts(clocks[..i]) + [clocks[i].attempt] == Attempts(clocks[..i + 1]);
      assert clocks[i..][1..] == clocks[i + 1..];
      if a.consumed {
        r := Admitted(a.bucket, sleeps);
        return;
      }
      var d := SleepAfter(a.bucket, clocks[i].beforeSleep);
      if d < 0 {
        r := SleepRefused(a.bucket, sleeps, d);
        return;
      }
      sleeps := sleeps + [d];
      PrefixThenAppend(sleeps[..i], d, ConsumeFrom(a.bucket, clocks[i + 1..]));
      assert sleeps[..i] + [d] == sleeps;
      cur := a.bucket;
      i := i + 1;
    }
    assert clocks[..i] == clocks;
    r := StillWaiting(cur, sleeps);
  }

  /**
   * Each sleep `Consume()` takes is the one line 336 asks for: the deadline
   * left by the attempts so far minus that iteration's sleep reading. With
   * every sleep taken non-negative, the loop stops at the first negative one.
   */
  lemma {:induction false} ConsumeSleepsUntilDeadline(b: Bucket, clocks: seq<Reading>)
    ensures var r := ConsumeFrom(b, clocks);
            forall k :: 0 <= k < |r.sleeps| ==>
              r.sleeps[k] == SleepAfter(Run(b, Attempts(clocks[..k + 1])).bucket, clocks[k].beforeSleep)
    decreases |clocks|
  {
    var r := ConsumeFrom(b, clocks);
    if |clocks| > 0 && |r.sleeps| > 0 {
      var a := TryConsume(b, clocks[0].attempt);
      var rest := ConsumeFrom(a.bucket, clocks[1..]);
      ConsumeSleepsUntilDeadline(a.bucket, clocks[1..]);
      assert r.sleeps == [SleepAfter(a.bucket, clocks[0].beforeSleep)] + rest.sleeps;
      forall k | 0 <= k < |r.sleeps|
        ensures r.sleeps[k] == SleepAfter(Run(b, Attempts(clocks[..k + 1])).bucket, clocks[k].beforeSleep)
      {
        assert Attempts(clocks[..k + 1])[0] == clocks[0].attempt;
        assert Attempts(clocks[..k + 1])[1..] == Attempts(clocks[1..][..k]);
        if k > 0 {
          assert r.sleeps[k] == rest.sleeps[k - 1];
          assert clocks[1..][k - 1] == clocks[k];
        }
      }
    }
  }

  /**
   * When the sleep is computed from the attempt's own reading (no time passes
   * between the two), Thread.sleep never refuses it.
   */
  lemma {:induction false} PromptSleepNeverRefused(b: Bucket, clocks: seq<Reading>)
    requires b.windowMillis >= 0
    requires forall i :: 0 <= i < |clocks| ==> clocks[i].beforeSleep == clocks[i].attempt
    ensures !ConsumeFrom(b, clocks).SleepRefused?
    decreases |clocks|
  {
    if |clocks| > 0 {
      var a := TryConsume(b, clocks[0].attempt);
      if !a.consumed {
        FailedAttemptSleepNonNegative(b, clocks[0].attempt, clocks[0].beforeSleep);
        PromptSleepNeverRefused(a.bucket, clocks[1..]);
      }
    }
  }

  /**
   * A late sleep reading throws: with one request per second, after a slot
   * taken at 0 ms, an attempt at 999 ms fails and a sleep reading of 1001 ms
   * asks Thread.sleep for -1 ms.
   */
  lemma LateSleepReadingRefused()
    ensures var a := TryConsume(ForClient(Seconds, 1), 0);
            a.consumed
            && ConsumeFrom(a.bucket, [Reading(999, 1001)]).SleepRefused?
            && ConsumeFrom(a.bucket, [Reading(999, 1001)]).duration == -1
  {
  }

  /** With a size of zero or less, `Consume()` never admits, whatever the clock does. */
  lemma {:induction false} ConsumeNeverAdmitsEmptyBucket(b: Bucket, clocks: seq<Reading>)
    requires b.bucketSize <= 0 && b.countAvailable <= 0
    ensures !ConsumeFrom(b, clocks).Admitted?
    decreases |clocks|
  {
    if |clocks| > 0 {
      var a := TryConsume(b, clocks[0].attempt);
      assert !a.consumed;
      ConsumeNeverAdmitsEmptyBucket(a.bucket, clocks[1..]);
    }
  }

  /**
   * No starvation: with a positive size, if a failed first attempt's sleep is
   * accepted and the next attempt's reading is at least that sleep later, the
   * second attempt is admitted.
   */
  lemma ConsumeAdmitsAfterOneSleep(b: Bucket, clocks: seq<Reading>)
    requires Valid(b) && b.bucketSize > 0
    requires |clocks| >= 2
    requires SleepAfter(TryConsume(b, clocks[0].attempt).bucket, clocks[0].beforeSleep) >= 0
    requires clocks[1].attempt
             >= clocks[0].beforeSleep + SleepAfter(TryConsume(b, clocks[0].attempt).bucket, clocks[0].beforeSleep)
    ensures ConsumeFrom(b, clocks).Admitted?
    ensures |ConsumeFrom(b, clocks).sleeps| <= 1
  {
    var a := TryConsume(b, clocks[0].attempt);
    if !a.consumed {
      assert !ResetDue(b, clocks[0].attempt);
      assert TryConsume(a.bucket, clocks[1].attempt).consumed;
    }
  }

  /** `Consume()` keeps the quota invariant, however it ends. */
  lemma {:induction false} ConsumeValid(b: Bucket, clocks: seq<Reading>)
    requires Valid(b)
    ensures Valid(ConsumeFrom(b, clocks).bucket)
    decreases |clocks|
  {
    if |clocks| > 0 {
      var a := TryConsume(b, clocks[0].attempt);
      TryConsumeValid(b, clocks[0].attempt);
      if !a.consumed && SleepAfter(a.bucket, clocks[0].beforeSleep) >= 0 {
        ConsumeValid(a.bucket, clocks[1..]);
      }
    }
  }

  /**
   * Two requests per second: calls at 0 ms and 10 ms are admitted at once; a
   * third at 20 ms fails and sleeps 980 ms, and is admitted when the clock
   * reads 1000 ms.
   */
  lemma TwoPerSecondScenario()
    ensures var b0 := ForClient(Seconds, 2);
            var a1 := TryConsume(b0, 0);
            var a2 := TryConsume(a1.bucket, 10);
            a1.consumed && a2.consumed
            && ConsumeFrom(a2.bucket, [Reading(20, 20)]).StillWaiting?
            && ConsumeFrom(a2.bucket, [Reading(20, 20), Reading(1000, 1000)]).Admitted?
            && ConsumeFrom(a2.bucket, [Reading(20, 20), Reading(1000, 1000)]).sleeps == [980]
  {
  }
}
